=== FILE: README.md ===
# IPFS deploy: the decision layer of `deploy`

The repository is a single script (`index.js`). It publishes a static site
directory to IPFS through a local node. It then asks two remote pinning
services (Pinata, then Infura) to keep the content, copies the content
identifier to the clipboard, optionally points the site's DNSLink TXT record
at the new identifier through Cloudflare, and optionally opens the site in a
browser.

This Dafny project models the deterministic part of that script:

- `Text`: literal substring search. This is what the unanchored regular
  expressions of the address filter do.
- `Addresses`: the public-address filter that picks Pinata's host hints.
- `LocalNode`: choosing the content identifier (the hash of the last add entry).
- `Settings`: the options `deploy` takes, and JavaScript truthiness of
  optional strings.
- `DnsLink`: the pre-flight check and record options of `doUpdateDns`, and
  how that call ends.
- `Pinning`: the Pinata options and the Infura pin URL.
- `Pipeline`: the callback chain of `deploy`. Each I/O call is replaced by
  its outcome, supplied as input (`Outcomes`). The result is the ordered list
  of effects the run initiates: `PinataPin`, `InfuraPin`, `Clipboard`,
  `DnsUpdate`, `OpenUrl`, and a final `Abort` when the run fails.

How the run ends follows the code:

- An error in the spawn, start, add or `id` callbacks is thrown and crashes
  the run.
- An absent `remote.pinata` object crashes the run inside the `id` callback,
  when its `apiKey` is read, before any Pinata request.
- An empty add result also crashes: entry `-1` is `undefined`, so reading its
  `hash` throws.
- A refused Pinata pin is rethrown from `.catch`, which ends the run. An
  unhandled rejection is treated as fatal, as in current Node.
- An Infura failure is only logged.
- `doUpdateDns` is started but not awaited. It throws before any provider
  call when the `cloudflare` object is absent, or when the Cloudflare key or
  e-mail, the site domain or the hash is missing or empty. A failed provider call exits the process with status 1.
- Because `doUpdateDns` is not awaited, the browser is opened before the DNS
  call settles. So a DNS failure shows as an `Abort` after `OpenUrl`.

Three consequences of the code that the model keeps:

- A Pinata failure stops everything after it, so the Infura pin is never
  requested; the two remote pins are not independent.
- A DNS provider failure exits with status 1, after the content is already
  pinned and copied.
- Opening the browser depends only on `open`, not on whether DNS was updated.

Two details of the code the model keeps:

- The address filter is a substring test, not an address-range test
  (`SubstringTestIsNotARangeTest`).
- With no `siteDomain`, the page opened is `https://undefined`, which is what
  the template literal produces (`SiteUrl`).

## Model

| member | source | states |
|---|---|---|
| Text.IndexOf | index.js:105-107 | Returns the position of the first occurrence of the pattern, or -1 exactly when the pattern occurs nowhere; this is the result of matching an unanchored literal pattern |
| Addresses.IsLocal | index.js:104-107 | An address is local exactly when one of `/::1/`, `127.0.0.1`, `192.168` begins at some position of it; a local address therefore has at least five characters |
| Addresses.LocalIgnoresSurroundings | index.js:104-107 | The match is unanchored: any text before or after a local address leaves it local |
| Addresses.PublicAddresses | index.js:103-108 | The kept addresses are no more than the input, and each is an input address containing none of `/::1/`, `127.0.0.1`, `192.168` |
| Addresses.KeptIff | index.js:103-108 | An address is kept if and only if it is in the input and contains none of the three patterns |
| Addresses.KeptCount | index.js:103-108 | Each non-local address is kept as many times as it occurs in the input, and each local one not at all, so duplicates survive |
| Addresses.KeptInOrder | index.js:103-108 | The kept addresses are a subsequence of the input: input order is preserved |
| Addresses.FilterDistributes | index.js:103-108 | Filtering a concatenation equals concatenating the filtered parts, so each address is judged on its own |
| Addresses.FilterIdempotent | index.js:103-108 | Filtering twice gives the same result as filtering once |
| Addresses.AllPublicUnchanged | index.js:103-108 | A list without local addresses passes through unchanged |
| Addresses.FilterPublic | index.js:103-108 | The one-pass loop with three pattern matches per address computes exactly the filtered list |
| Addresses.LoopbackAndLanDropped | index.js:103-108 | Of a loopback, a 192.168 and a public address, only the public one is kept |
| Addresses.SubstringTestIsNotARangeTest | index.js:103-108 | A public address whose octets spell 192.168 is dropped, and a 10.0.0.0/8 address is kept |
| Settings.DefaultConfig | index.js:47-52 | Without options a run updates DNS, does not open the browser and publishes the `public` directory |
| Settings.Present | index.js:15 | A string option passes the truthiness test exactly when it is present and non-empty; every falsy one renders as the empty text or as `undefined` (the converse fails: the string `undefined` is truthy) |
| Settings.JsText | index.js:162 | A present string renders as itself and an absent one as `undefined`, so the rendered text is empty only for the empty string |
| LocalNode.RootHash | index.js:97 | An identifier exists exactly when the add result is non-empty, and it is the hash of one of the reported entries |
| LocalNode.RootIsLastReported | index.js:97 | Whatever was reported before it, the hash of the last reported entry is the identifier |
| LocalNode.RootIgnoresEarlierEntries | index.js:97 | Entries reported before a non-empty tail do not affect the identifier |
| DnsLink.Link | index.js:27 | The link is the `/ipfs/` prefix followed by the hash: it starts with the prefix, and what follows the prefix is the hash |
| DnsLink.BuildRequest | index.js:14-28 | Rejected exactly when the `cloudflare` object is absent or the API key, API e-mail, site domain or hash is missing or empty (an absent object gives its own error); otherwise record and zone are the site domain, the link names the hash, and the credentials are passed through |
| DnsLink.LinkRoundTrip | index.js:27 | Dropping the `/ipfs/` prefix of a link recovers the hash |
| DnsLink.LinkParsedBack | index.js:27 | Every `/ipfs/` path is the link of the hash it names |
| DnsLink.LinkInjective | index.js:27 | Distinct hashes give distinct links |
| DnsLink.UpdateDns | index.js:11-45 | The call is rejected before any provider call exactly when the Cloudflare settings are absent or a required field is missing or empty; otherwise it submits the link for the site's zone, and the outcome is the provider's answer |
| DnsLink.ExampleRequest | index.js:24-28 | The request for `bafyABC123` on `example.com` has record and zone `example.com` and link `/ipfs/bafyABC123` |
| Pinning.PinataOptionsFor | index.js:103-118 | Pinata's host hints are the filtered list of node addresses (so, by KeptCount and KeptInOrder, exactly the non-local ones, duplicates included, in input order); the pin is named after the site domain, with the placeholder commit hash |
| Pinning.InfuraPinUrl | index.js:141-144 | The URL is the Infura pin endpoint followed by the hash and the recursive flag |
| Pinning.HashOfInfuraUrl | index.js:141-144 | A hash is read back exactly from URLs with the pin URL's prefix and suffix |
| Pinning.InfuraUrlRoundTrip | index.js:141-144 | Reading the hash back from a pin URL recovers the hash it was built from |
| Pinning.InfuraUrlParsedBack | index.js:141-144 | Every URL of the pin URL's shape is the pin URL of the hash it names |
| Pinning.ExampleInfuraUrl | index.js:141-144 | The pin URL for `bafyABC123` is `https://ipfs.infura.io:5001/api/v0/pin/add?arg=bafyABC123&recursive=true` |
| Pipeline.LocalHash | index.js:75-97 | The run has an identifier exactly when the node spawned and started and the add returned entries, and it is the hash of the last entry |
| Pipeline.SiteUrl | index.js:162 | The page opened is `https://` followed by the site domain, or `https://undefined` when no domain is set |
| Pipeline.Deploy | index.js:75-166 | A run initiates at least one effect, and exactly one effect when it does not reach the Pinata request (that this effect is an abort is stated by EarlyFailureAbortsAlone) |
| Pipeline.OnAdded | index.js:100-131 | A failed `id` gives only an abort; absent Pinata settings give only an abort; otherwise the first effect is the Pinata pin of the hash with the filtered addresses and the site domain, followed directly by an abort, and nothing else, exactly when Pinata refuses |
| Pipeline.OnPinned | index.js:132-162 | The Pinata success handler requests the Infura pin and copies the hash first; it opens the site exactly when `open` is set and only that URL; it calls the DNS provider exactly when `updateDns` is set and the pre-flight check passes, and every update it starts is the request built for the site and the hash; it never pins on Pinata again |
| Pipeline.DnsStarted | index.js:14-36 | The provider is called at most once, exactly when the pre-flight check passed, with the request that check built |
| Pipeline.DnsSettled | index.js:14-44 | A rejected pre-flight check ends the run with its error, a refused provider call ends it with the exit of status 1, and an accepted call adds nothing |
| Pipeline.EffectsInCanonicalOrder | index.js:130-166 | Effects come in the order Pinata, Infura, clipboard, DNS, browser, abort; each kind at most once; an abort is always last |
| Pipeline.EarlyFailureAbortsAlone | index.js:75-123 | A failure to spawn or start the node, to add the directory (or an empty add result), to list addresses, or absent Pinata settings yields only an abort; no remote call is made |
| Pipeline.PinataFailureStops | index.js:130-166 | A refused Pinata pin ends the run right after the Pinata request |
| Pipeline.LaterEffectsNeedPinata | index.js:130-162 | Infura, clipboard, DNS and browser effects occur only after a successful Pinata pin |
| Pipeline.ClipboardFollowsPinata | index.js:132-158 | After a successful Pinata pin, the Infura pin is requested and then the identifier is copied |
| Pipeline.InfuraOutcomeIrrelevant | index.js:135-155 | The Infura status or exception does not change the run |
| Pipeline.DnsUpdateIff | index.js:130-160 | The DNS provider is called if and only if Pinata succeeded, `updateDns` is set and the pre-flight check passes |
| Pipeline.DnsUpdateTargetsSite | index.js:19-28 | Every DNS update of a run follows a successful Pinata pin and is the request built for the run's identifier, with the site domain as both record and zone |
| Pipeline.OpenUrlIff | index.js:160-162 | The site `https://<siteDomain>` is opened if and only if Pinata succeeded and `open` is set |
| Pipeline.OpenIgnoresUpdateDns | index.js:160-162 | Which URL is opened, if any, does not depend on `updateDns` |
| Pipeline.OneIdentifierThroughout | index.js:97-160 | Every Pinata request, Infura URL, clipboard copy and DNS link in the run carries the one identifier the local add produced |
| Pipeline.CompletedIff | index.js:36-166 | The run ends without error if and only if Pinata succeeded and, when DNS is updated, the pre-flight check passed and the provider accepted |
| Pipeline.PinataHostsArePublic | index.js:103-131 | The first effect of a run that reaches Pinata is the pin request, whose host hints are the filtered node addresses: the non-local ones, duplicates included, in order |
| Pipeline.EndToEndExample | index.js:75-162 | A run where every step succeeds on identifier `bafyABC123` pins the public address only, pins on Infura, copies the identifier and links `/ipfs/bafyABC123` |

## Left out

- Finding the IPFS binary and building the daemon controller (index.js:65-73). This is process plumbing. Its outcome is the `spawnOk`/`startOk` inputs.
- Spinners, colouring and console output. These are UI only.
- The internals of the Pinata SDK, the HTTP client and the Cloudflare DNSLink updater. These are foreign libraries; each call is an abstract outcome. The TXT value the updater writes (`dnslink=` followed by the link) is produced inside that library and is not modelled.
- Clipboard and browser mechanics. They are recorded only as effects. The clipboard write is assumed not to throw.
- Calls that never settle. Every awaited call (the Pinata pin, the Infura request, the DNS provider call) is assumed to settle with one of the modelled outcomes. index.js sets no timeout, so a call that never settles stops the run at that step; the lemmas that say what follows a call hold only for runs where it settles.
- Async timing beyond initiation order. The model lists which calls are started and in which order, and puts the settling of the un-awaited DNS call last. An unhandled rejection is treated as fatal (current Node behaviour).
- The default `remote` object (index.js:53-63). It refers to unbound names, so `remote` is always supplied.
- The argument defaults (`updateDns` true, `open` false, `publicDirPath` `public`) are stated by `DefaultConfig`; `publicDirPath` is carried but not read, since the add step's outcome is an input. JavaScript truthiness of non-boolean flags is not modelled: flags are `bool`.
- LocalNode.RootHash: an add entry without a `hash` property is modelled with the hash `""`, which the DNS pre-flight check rejects like `undefined`.
- Pinning.InfuraPinUrl: for such an entry the source's template literal writes `arg=undefined` into the Infura URL, while the model writes `arg=`. Likewise Pinata and the clipboard receive `""` in the model where the source passes `undefined`; whether the clipboard write of `undefined` throws is not modelled.
- Pipeline.Deploy: an error from `id` is modelled as an abort. In the source, destructuring the missing second argument throws before `if (err4)` is reached. Both end the run, but with different error objects.

=== FILE: addresses.dfy ===
/**
 * The public-address filter applied to the addresses the local node
 * advertises before they are handed to Pinata as host hints
 * (index.js, lines 103-108).
 */
module Addresses {
  import opened Text

  /** The three literal patterns the filter rejects. */
  const Ipv6Loopback: string := "/::1/"
  const Ipv4Loopback: string := "127.0.0.1"
  const PrivateRange: string := "192.168"

  /** An address is dropped when any of the three patterns occurs in it. */
  predicate IsLocal(address: string)
    ensures IsLocal(address) <==>
      (exists i :: 0 <= i < |address| &&
        (MatchesAt(address, Ipv6Loopback, i) || MatchesAt(address, Ipv4Loopback, i) || MatchesAt(address, PrivateRange, i)))
    ensures IsLocal(address) ==> |address| >= |Ipv6Loopback|
  {
    Contains(address, Ipv6Loopback) || Contains(address, Ipv4Loopback) || Contains(address, PrivateRange)
  }

  /** The test is unanchored: text around a local address does not make it public. */
  lemma LocalIgnoresSurroundings(address: string, before: string, after: string)
    requires IsLocal(address)
    ensures IsLocal(before + address + after)
  {
    var s := before + address + after;
    forall pat, i | MatchesAt(address, pat, i)
      ensures MatchesAt(s, pat, |before| + i)
    {
      assert s[|before| + i..|before| + i + |pat|] == address[i..i + |pat|];
    }
    var pat := if Contains(address, Ipv6Loopback) then Ipv6Loopback
               else if Contains(address, Ipv4Loopback) then Ipv4Loopback else PrivateRange;
    var i :| 0 <= i <= |address| - |pat| && MatchesAt(address, pat, i);
    assert MatchesAt(s, pat, |before| + i);
  }

  /** `sub` can be obtained from `s` by deleting elements. */
  predicate IsSubsequence<T(==)>(sub: seq<T>, s: seq<T>)
    decreases |s|
  {
    if sub == [] then true
    else if s == [] then false
    else if sub[0] == s[0] then IsSubsequence(sub[1..], s[1..])
    else IsSubsequence(sub, s[1..])
  }

  /**
   * The addresses that contain none of the local patterns, in their
   * original order.
   */
  function PublicAddresses(addresses: seq<string>): (kept: seq<string>)
    ensures |kept| <= |addresses|
    ensures forall a :: a in kept ==> a in addresses && !IsLocal(a)
  {
    if addresses == [] then []
    else
      var rest := PublicAddresses(addresses[1..]);
      if IsLocal(addresses[0]) then rest else [addresses[0]] + rest
  }

  /** The filter keeps an address exactly when it is in the input and is not local. */
  lemma {:induction false} KeptIff(addresses: seq<string>, a: string)
    ensures a in PublicAddresses(addresses) <==> a in addresses && !IsLocal(a)
  {
    if addresses != [] {
      KeptIff(addresses[1..], a);
      assert addresses == [addresses[0]] + addresses[1..];
    }
  }

  /**
   * Each non-local address is kept as many times as it occurs in the
   * input, and local ones not at all; duplicates survive the filter.
   */
  lemma {:induction false} KeptCount(addresses: seq<string>)
    ensures forall a :: multiset(PublicAddresses(addresses))[a] == if IsLocal(a) then 0 else multiset(addresses)[a]
  {
    if addresses != [] {
      KeptCount(addresses[1..]);
      assert addresses == [addresses[0]] + addresses[1..];
    }
  }

  /** The kept addresses appear in the same relative order as in the input. */
  lemma {:induction false} KeptInOrder(addresses: seq<string>)
    ensures IsSubsequence(PublicAddresses(addresses), addresses)
  {
    if addresses != [] {
      KeptInOrder(addresses[1..]);
      var rest := PublicAddresses(addresses[1..]);
      if IsLocal(addresses[0]) {
        SkipHead(rest, addresses);
      } else {
        assert ([addresses[0]] + rest)[1..] == rest;
      }
    }
  }

  /** A subsequence whose head differs from the sequence's head lives in its tail. */
  lemma SkipHead(sub: seq<string>, s: seq<string>)
    requires s != []
    requires IsLocal(s[0])
    requires forall a :: a in sub ==> !IsLocal(a)
    requires IsSubsequence(sub, s[1..])
    ensures IsSubsequence(sub, s)
  {
    if sub != [] {
      assert sub[0] in sub;
    }
  }

  /** Filtering a concatenation filters each part. */
  lemma {:induction false} FilterDistributes(xs: seq<string>, ys: seq<string>)
    ensures PublicAddresses(xs + ys) == PublicAddresses(xs) + PublicAddresses(ys)
  {
    if xs == [] {
      assert xs + ys == ys;
    } else {
      assert (xs + ys)[1..] == xs[1..] + ys;
      FilterDistributes(xs[1..], ys);
    }
  }

  /** Filtering an already filtered list changes nothing. */
  lemma {:induction false} FilterIdempotent(addresses: seq<string>)
    ensures PublicAddresses(PublicAddresses(addresses)) == PublicAddresses(addresses)
  {
    AllPublicUnchanged(PublicAddresses(addresses));
  }

  /** A list with no local address passes through unchanged. */
  lemma {:induction false} AllPublicUnchanged(addresses: seq<string>)
    requires forall a :: a in addresses ==> !IsLocal(a)
    ensures PublicAddresses(addresses) == addresses
  {
    if addresses != [] {
      assert addresses[0] in addresses;
      assert forall a :: a in addresses[1..] ==> a in addresses;
      AllPublicUnchanged(addresses[1..]);
      assert addresses == [addresses[0]] + addresses[1..];
    }
  }

  /**
   * The filter as the source runs it: one pass over the addresses, testing
   * each with the three pattern matches.
   */
  method FilterPublic(addresses: seq<string>) returns (kept: seq<string>)
    ensures kept == PublicAddresses(addresses)
  {
    kept := [];
    var i := 0;
    while i < |addresses|
      invariant 0 <= i <= |addresses|
      invariant kept == PublicAddresses(addresses[..i])
    {
      var a := addresses[i];
      var k1 := IndexOf(a, Ipv6Loopback);
      var k2 := IndexOf(a, Ipv4Loopback);
      var k3 := IndexOf(a, PrivateRange);
      assert addresses[..i + 1] == addresses[..i] + [a];
      FilterDistributes(addresses[..i], [a]);
      if k1 == -1 && k2 == -1 && k3 == -1 {
        kept := kept + [a];
      }
      i := i + 1;
    }
    assert addresses[..i] == addresses;
  }

  /** Of a loopback, a 192.168 and a public address, only the public one is kept. */
  lemma LoopbackAndLanDropped()
    ensures PublicAddresses(["/ip4/127.0.0.1/tcp/4001", "/ip4/192.168.1.5/tcp/4001", "/ip4/203.0.113.9/tcp/4001"])
         == ["/ip4/203.0.113.9/tcp/4001"]
  {
    var loop := "/ip4/127.0.0.1/tcp/4001";
    var lan := "/ip4/192.168.1.5/tcp/4001";
    var pub := "/ip4/203.0.113.9/tcp/4001";
    assert MatchesAt(loop, Ipv4Loopback, 5);
    assert MatchesAt(lan, PrivateRange, 5);
    MissingCharExcludes(pub, Ipv6Loopback, ':');
    MissingCharExcludes(pub, Ipv4Loopback, '7');
    MissingCharExcludes(pub, PrivateRange, '6');
    assert !IsLocal(pub);
    var input := [loop, lan, pub];
    assert input[1..] == [lan, pub];
    assert input[1..][1..] == [pub];
    assert [pub][1..] == [];
  }

  /**
   * The test is a plain substring test, not an address-range test: a public
   * address whose octets spell "192.168" is dropped, and a 10.0.0.0/8
   * private address is kept.
   */
  lemma SubstringTestIsNotARangeTest()
    ensures IsLocal("/ip4/81.192.168.7/tcp/4001")
    ensures !IsLocal("/ip4/10.0.0.5/tcp/4001")
  {
    assert MatchesAt("/ip4/81.192.168.7/tcp/4001", PrivateRange, 8);
    MissingCharExcludes("/ip4/10.0.0.5/tcp/4001", Ipv6Loopback, ':');
    MissingCharExcludes("/ip4/10.0.0.5/tcp/4001", Ipv4Loopback, '7');
    MissingCharExcludes("/ip4/10.0.0.5/tcp/4001", PrivateRange, '9');
  }
}

=== FILE: dnslink.dfy ===
/**
 * `doUpdateDns` (index.js, lines 11-45): the local pre-flight check, the
 * options handed to the Cloudflare DNSLink updater, and how the call ends.
 */
module DnsLink {
  import opened Results
  import opened Text
  import opened Settings

  /** The credentials object passed to the updater. */
  datatype Api = Api(email: string, key: string)

  /** The record options passed to the updater. */
  datatype LinkOptions = LinkOptions(record: string, zone: string, link: string)

  datatype DnsRequest = DnsRequest(api: Api, opts: LinkOptions)

  /** Why `doUpdateDns` throws before any provider call. */
  datatype DnsError =
    | NoCloudflareSettings // `cloudflare` is absent, so destructuring it throws
    | MissingInformation   // a required field is missing or empty

  const LinkPrefix: string := "/ipfs/"

  /** The DNSLink path of a content identifier: the `/ipfs/` prefix, then the identifier. */
  function Link(hash: string): (link: string)
    ensures StartsWith(link, LinkPrefix)
    ensures |link| == |LinkPrefix| + |hash|
    ensures link[|LinkPrefix|..] == hash
  {
    LinkPrefix + hash
  }

  /** The content identifier a DNSLink path points to, if it is an `/ipfs/` path. */
  function HashOfLink(link: string): (h: Option<string>)
    ensures h.Some? <==> StartsWith(link, LinkPrefix)
    ensures h.Some? ==> |h.value| == |link| - |LinkPrefix|
  {
    if StartsWith(link, LinkPrefix) then Some(link[|LinkPrefix|..]) else None
  }

  /** Dropping the prefix recovers the identifier. */
  lemma LinkRoundTrip(hash: string)
    ensures HashOfLink(Link(hash)) == Some(hash)
  {
    assert Link(hash)[|LinkPrefix|..] == hash;
  }

  /** Every `/ipfs/` path is the link of the identifier it names. */
  lemma LinkParsedBack(link: string, hash: string)
    requires HashOfLink(link) == Some(hash)
    ensures Link(hash) == link
  {
    assert link == link[..|LinkPrefix|] + link[|LinkPrefix|..];
  }

  /** Distinct identifiers give distinct links. */
  lemma LinkInjective(h1: string, h2: string)
    requires Link(h1) == Link(h2)
    ensures h1 == h2
  {
    LinkRoundTrip(h1);
    LinkRoundTrip(h2);
  }

  /**
   * The pre-flight check and the request: rejected when the Cloudflare
   * settings are absent, or when the API key, the API e-mail, the site
   * domain or the hash is missing or empty; otherwise
   * the record and the zone are both the site domain and the link is the
   * `/ipfs/` path of the hash.
   */
  function BuildRequest(remote: Remote, hash: string): (r: Result<DnsRequest, DnsError>)
    ensures r.Success? <==>
      remote.cloudflare.Some?
      && Present(remote.cloudflare.value.apiKey) && Present(remote.cloudflare.value.apiEmail)
      && Present(remote.siteDomain) && hash != ""
    ensures r.Failure? ==> (r.error == NoCloudflareSettings <==> remote.cloudflare.None?)
    ensures r.Success? ==> r.value.opts.record == remote.siteDomain.value && r.value.opts.zone == remote.siteDomain.value
    ensures r.Success? ==> HashOfLink(r.value.opts.link) == Some(hash)
    ensures r.Success? ==> r.value.api.email == remote.cloudflare.value.apiEmail.value
    ensures r.Success? ==> r.value.api.key == remote.cloudflare.value.apiKey.value
  {
    match remote.cloudflare
    case None => Failure(NoCloudflareSettings)
    case Some(cf) =>
      if !Present(cf.apiKey) || !Present(cf.apiEmail) || !Present(remote.siteDomain) || hash == "" then
        Failure(MissingInformation)
      else
        LinkRoundTrip(hash);
        var domain := remote.siteDomain.value;
        Success(DnsRequest(Api(cf.apiEmail.value, cf.apiKey.value), LinkOptions(domain, domain, Link(hash))))
  }

  /** How a `doUpdateDns` call ends. */
  datatype DnsAttempt =
    | Rejected(error: DnsError)                     // thrown before any provider call
    | Submitted(request: DnsRequest, accepted: bool) // provider called; on refusal the process exits with status 1

  /** A `doUpdateDns` call, given whether the provider accepts the update. */
  function UpdateDns(remote: Remote, hash: string, providerAccepts: bool): (a: DnsAttempt)
    ensures a.Rejected? <==> remote.cloudflare.None?
                             || !Present(remote.cloudflare.value.apiKey) || !Present(remote.cloudflare.value.apiEmail)
                             || !Present(remote.siteDomain) || hash == ""
    ensures a.Submitted? ==> a.request.opts.link == Link(hash) && a.accepted == providerAccepts
    ensures a.Submitted? ==> a.request.opts.record == a.request.opts.zone == remote.siteDomain.value
  {
    match BuildRequest(remote, hash)
    case Failure(e) => Rejected(e)
    case Success(request) =>
      LinkParsedBack(request.opts.link, hash);
      Submitted(request, providerAccepts)
  }

  /** A request for `bafyABC123` carries the link `/ipfs/bafyABC123` for the site's own zone. */
  lemma ExampleRequest()
    ensures
      var remote := Remote(Some("example.com"), Some(Cloudflare(Some("ops@example.com"), Some("k3y"))), None);
      BuildRequest(remote, "bafyABC123")
        == Success(DnsRequest(Api("ops@example.com", "k3y"), LinkOptions("example.com", "example.com", "/ipfs/bafyABC123")))
  {
    assert Link("bafyABC123") == "/ipfs/bafyABC123";
  }
}

=== FILE: local_node.dfy ===
/**
 * The content identifier of a deployment: the local node reports one entry
 * per added file or directory, and the root of the tree comes last
 * (index.js, line 97).
 */
module LocalNode {
  import opened Results

  /** One entry of the result of a recursive add. */
  datatype AddEntry = AddEntry(path: string, hash: string)

  /**
   * An empty add result: the source indexes entry -1, reads `undefined`
   * and the destructuring of `hash` throws.
   */
  datatype AddError = NoEntries

  /** The content identifier of the run: the hash of the last entry. */
  function RootHash(entries: seq<AddEntry>): (r: Result<string, AddError>)
    ensures r.Success? <==> |entries| > 0
    ensures r.Failure? ==> r.error == NoEntries
    ensures r.Success? ==> exists i :: 0 <= i < |entries| && entries[i].hash == r.value
  {
    if |entries| == 0 then Failure(NoEntries) else Success(entries[|entries| - 1].hash)
  }

  /** Whatever was reported before it, the entry reported last is the root. */
  lemma RootIsLastReported(earlier: seq<AddEntry>, last: AddEntry)
    ensures RootHash(earlier + [last]) == Success(last.hash)
  {
  }

  /** Only the last entry matters: any entries reported before it are ignored. */
  lemma RootIgnoresEarlierEntries(earlier: seq<AddEntry>, later: seq<AddEntry>)
    requires later != []
    ensures RootHash(earlier + later) == RootHash(later)
  {
    assert (earlier + later)[|earlier + later| - 1] == later[|later| - 1];
  }
}

=== FILE: pinning.dfy ===
/**
 * The two remote pin requests: the options handed to Pinata
 * (index.js, lines 110-131) and the Infura pin URL (lines 141-144).
 */
module Pinning {
  import opened Results
  import opened Text
  import opened Settings
  import opened Addresses

  /** The options of the Pinata pin request. */
  datatype PinataOptions = PinataOptions(hostNodes: seq<string>, name: Option<string>, gitCommitHash: string)

  /** The commit hash label is a fixed placeholder. */
  const CommitHashPlaceholder: string := "TODO"

  /**
   * Pinata is given the node's public addresses as host hints and the site
   * domain as the pin's name.
   */
  function PinataOptionsFor(remote: Remote, addresses: seq<string>): (opts: PinataOptions)
    ensures opts.hostNodes == PublicAddresses(addresses)
    ensures forall a :: a in opts.hostNodes <==> a in addresses && !IsLocal(a)
    ensures IsSubsequence(opts.hostNodes, addresses)
    ensures opts.name == remote.siteDomain
    ensures opts.gitCommitHash == CommitHashPlaceholder
  {
    KeptInOrder(addresses);
    forall a ensures a in PublicAddresses(addresses) <==> a in addresses && !IsLocal(a) {
      KeptIff(addresses, a);
    }
    PinataOptions(PublicAddresses(addresses), remote.siteDomain, CommitHashPlaceholder)
  }

  const InfuraPinPrefix: string := "https://ipfs.infura.io:5001/api/v0/pin/add?arg="
  const InfuraPinSuffix: string := "&recursive=true"

  /** The Infura pin URL: the identifier is the `arg` query parameter, pinned recursively. */
  function InfuraPinUrl(hash: string): (url: string)
    ensures StartsWith(url, InfuraPinPrefix) && EndsWith(url, InfuraPinSuffix)
    ensures |url| == |InfuraPinPrefix| + |hash| + |InfuraPinSuffix|
  {
    InfuraPinPrefix + hash + InfuraPinSuffix
  }

  /** The identifier an Infura pin URL names, if it has the pin URL's shape. */
  function HashOfInfuraUrl(url: string): (h: Option<string>)
    ensures h.Some? <==>
      |InfuraPinPrefix| + |InfuraPinSuffix| <= |url| && StartsWith(url, InfuraPinPrefix) && EndsWith(url, InfuraPinSuffix)
    ensures h.Some? ==> |h.value| == |url| - |InfuraPinPrefix| - |InfuraPinSuffix|
  {
    if |InfuraPinPrefix| + |InfuraPinSuffix| <= |url| && StartsWith(url, InfuraPinPrefix) && EndsWith(url, InfuraPinSuffix) then
      Some(url[|InfuraPinPrefix|..|url| - |InfuraPinSuffix|])
    else
      None
  }

  /** Parsing the URL recovers the identifier it was built from. */
  lemma InfuraUrlRoundTrip(hash: string)
    ensures HashOfInfuraUrl(InfuraPinUrl(hash)) == Some(hash)
  {
    var url := InfuraPinUrl(hash);
    assert url[|InfuraPinPrefix|..|url| - |InfuraPinSuffix|] == hash;
  }

  /** Every URL of the pin URL's shape is the pin URL of the identifier it names. */
  lemma InfuraUrlParsedBack(url: string, hash: string)
    requires HashOfInfuraUrl(url) == Some(hash)
    ensures InfuraPinUrl(hash) == url
  {
    var p, q := |InfuraPinPrefix|, |url| - |InfuraPinSuffix|;
    assert url == url[..p] + url[p..q] + url[q..];
  }

  /** The pin URL for `bafyABC123`. */
  lemma ExampleInfuraUrl()
    ensures InfuraPinUrl("bafyABC123") == "https://ipfs.infura.io:5001/api/v0/pin/add?arg=bafyABC123&recursive=true"
  {
  }
}

=== FILE: pipeline.dfy ===
/**
 * The step ordering and gating of `deploy` (index.js, lines 75-166). Every
 * I/O call is replaced by its outcome, supplied as input; the result is the
 * ordered list of effects the run initiates.
 *
 * Effects are listed in the order they are initiated. `doUpdateDns` is not
 * awaited, so the browser is opened before the DNS provider call settles;
 * a run that fails there ends with an `Abort` after the `OpenUrl`.
 */
module Pipeline {
  import opened Results
  import opened Settings
  import opened Addresses
  import opened LocalNode
  import opened DnsLink
  import opened Pinning

  /** Why a run stops with an error. */
  datatype AbortReason =
    | SpawnFailed             // df.spawn reported an error
    | StartFailed             // ipfsd.start reported an error
    | AddFailed               // addFromFs reported an error
    | EmptyAddResult          // addFromFs reported no entries
    | IdFailed                // id reported an error
    | NoPinataSettings        // `remote.pinata` is absent, so reading its key throws
    | PinataFailed            // the Pinata pin was refused; rethrown from `.catch`
    | DnsRejected(error: DnsError) // doUpdateDns threw before calling the provider
    | DnsProviderFailed       // the provider call failed; the process exits with status 1

  /** What a run initiates. */
  datatype Effect =
    | PinataPin(hash: string, options: PinataOptions)
    | InfuraPin(url: string)
    | Clipboard(hash: string)
    | DnsUpdate(request: DnsRequest)
    | OpenUrl(url: string)
    | Abort(reason: AbortReason)

  /** The Infura response: a status code, or an exception from the HTTP client. */
  datatype InfuraOutcome = InfuraStatus(code: int) | InfuraThrew

  /** The outcome of every I/O call a run can make. */
  datatype Outcomes = Outcomes(
    spawnOk: bool,
    startOk: bool,
    added: Option<seq<AddEntry>>,     // None: addFromFs reported an error
    addresses: Option<seq<string>>,   // None: id reported an error
    pinataOk: bool,
    infura: InfuraOutcome,
    dnsProviderOk: bool)

  /** The page opened in the browser. */
  function SiteUrl(siteDomain: Option<string>): (url: string)
    ensures siteDomain.Some? ==> url == "https://" + siteDomain.value
    ensures siteDomain.None? ==> url == "https://undefined"
  {
    "https://" + JsText(siteDomain)
  }

  /** The content identifier of the run, once the node is up and the add succeeded. */
  function LocalHash(o: Outcomes): (h: Option<string>)
    ensures h.Some? <==> o.spawnOk && o.startOk && o.added.Some? && |o.added.value| > 0
    ensures h.Some? ==> h.value == o.added.value[|o.added.value| - 1].hash
  {
    if o.spawnOk && o.startOk && o.added.Some? then
      match RootHash(o.added.value)
      case Success(hash) => Some(hash)
      case Failure(_) => None
    else
      None
  }

  /** The run gets as far as asking Pinata for a pin. */
  predicate PinataReached(cfg: Config, o: Outcomes)
  {
    LocalHash(o).Some? && o.addresses.Some? && cfg.remote.pinata.Some?
  }

  /** Pinata accepted the pin. */
  predicate PinataSucceeded(cfg: Config, o: Outcomes)
  {
    PinataReached(cfg, o) && o.pinataOk
  }

  /** A complete run of `deploy`. */
  function Deploy(cfg: Config, o: Outcomes): (trace: seq<Effect>)
    ensures |trace| >= 1
    ensures !PinataReached(cfg, o) <==> |trace| == 1
  {
    if !o.spawnOk then [Abort(SpawnFailed)]
    else if !o.startOk then [Abort(StartFailed)]
    else match o.added
      case None => [Abort(AddFailed)]
      case Some(entries) =>
        match RootHash(entries)
        case Failure(_) => [Abort(EmptyAddResult)]
        case Success(hash) => OnAdded(cfg, o, hash)
  }

  /**
   * The `id` callback: filter the addresses, create the Pinata client and
   * ask Pinata to pin the identifier.
   */
  function OnAdded(cfg: Config, o: Outcomes, hash: string): (trace: seq<Effect>)
    ensures o.addresses.None? ==> trace == [Abort(IdFailed)]
    ensures o.addresses.Some? && cfg.remote.pinata.None? ==> trace == [Abort(NoPinataSettings)]
    ensures o.addresses.Some? && cfg.remote.pinata.Some? ==>
      && |trace| >= 2
      && trace[0] == PinataPin(hash, PinataOptions(PublicAddresses(o.addresses.value), cfg.remote.siteDomain, CommitHashPlaceholder))
      && (trace[1] == Abort(PinataFailed) <==> !o.pinataOk)
      && (!o.pinataOk ==> |trace| == 2)
  {
    match o.addresses
    case None => [Abort(IdFailed)]
    case Some(addresses) =>
      if cfg.remote.pinata.None? then
        [Abort(NoPinataSettings)]
      else
        [PinataPin(hash, PinataOptionsFor(cfg.remote, addresses))]
        + (if o.pinataOk then OnPinned(cfg, o, hash) else [Abort(PinataFailed)])
  }

  /**
   * The Pinata success handler: the Infura pin and the clipboard copy always,
   * then the DNS provider call when `updateDns` is set and the pre-flight
   * check passes, the browser when `open` is set, and last how DNS settled.
   */
  function OnPinned(cfg: Config, o: Outcomes, hash: string): (trace: seq<Effect>)
    ensures |trace| >= 2
    ensures trace[0] == InfuraPin(InfuraPinUrl(hash)) && trace[1] == Clipboard(hash)
    ensures OpenUrl(SiteUrl(cfg.remote.siteDomain)) in trace <==> cfg.open
    ensures forall e :: e in trace && e.OpenUrl? ==> e == OpenUrl(SiteUrl(cfg.remote.siteDomain))
    ensures (exists e :: e in trace && e.DnsUpdate?) <==> cfg.updateDns && BuildRequest(cfg.remote, hash).Success?
    ensures forall e :: e in trace && e.DnsUpdate? ==>
      BuildRequest(cfg.remote, hash).Success? && e.request == BuildRequest(cfg.remote, hash).value
    ensures forall e :: e in trace ==> !e.PinataPin?
  {
    var dns := if cfg.updateDns then Some(UpdateDns(cfg.remote, hash, o.dnsProviderOk)) else None;
    var trace := [InfuraPin(InfuraPinUrl(hash)), Clipboard(hash)]
      + DnsStarted(dns)
      + (if cfg.open then [OpenUrl(SiteUrl(cfg.remote.siteDomain))] else [])
      + DnsSettled(dns);
    assert cfg.updateDns && BuildRequest(cfg.remote, hash).Success? ==> trace[2].DnsUpdate?;
    trace
  }

  /** The provider call `doUpdateDns` starts, if it passes its pre-flight check. */
  function DnsStarted(dns: Option<DnsAttempt>): (started: seq<Effect>)
    ensures |started| <= 1
    ensures started != [] <==> dns.Some? && dns.value.Submitted?
    ensures started != [] ==> started[0] == DnsUpdate(dns.value.request)
  {
    match dns
    case Some(Submitted(request, _)) => [DnsUpdate(request)]
    case _ => []
  }

  /** How the DNS update ends the run, after everything else was initiated. */
  function DnsSettled(dns: Option<DnsAttempt>): (settled: seq<Effect>)
    ensures |settled| <= 1
    ensures settled != [] <==> dns.Some? && (dns.value.Rejected? || !dns.value.accepted)
    ensures settled != [] ==> settled[0].Abort?
    ensures dns.Some? && dns.value.Rejected? ==> settled == [Abort(DnsRejected(dns.value.error))]
    ensures dns.Some? && dns.value.Submitted? && !dns.value.accepted ==> settled == [Abort(DnsProviderFailed)]
  {
    match dns
    case Some(Rejected(error)) => [Abort(DnsRejected(error))]
    case Some(Submitted(_, false)) => [Abort(DnsProviderFailed)]
    case _ => []
  }

  /** The canonical position of each kind of effect. */
  function Rank(e: Effect): nat
  {
    match e
    case PinataPin(_, _) => 0
    case InfuraPin(_) => 1
    case Clipboard(_) => 2
    case DnsUpdate(_) => 3
    case OpenUrl(_) => 4
    case Abort(_) => 5
  }

  /** Strictly increasing ranks: each kind at most once, in the canonical order. */
  predicate InCanonicalOrder(trace: seq<Effect>)
  {
    forall i, j :: 0 <= i < j < |trace| ==> Rank(trace[i]) < Rank(trace[j])
  }

  /** The content identifier an effect carries, read back out of its request. */
  function CarriedHash(e: Effect): Option<string>
  {
    match e
    case PinataPin(hash, _) => Some(hash)
    case InfuraPin(url) => HashOfInfuraUrl(url)
    case Clipboard(hash) => Some(hash)
    case DnsUpdate(request) => HashOfLink(request.opts.link)
    case _ => None
  }

  /** The run ended without an error. */
  predicate Completed(trace: seq<Effect>)
  {
    forall e :: e in trace ==> !e.Abort?
  }

  /**
   * Effects are initiated in the order Pinata, Infura, clipboard, DNS,
   * browser, each at most once, and an abort is always the last effect.
   */
  lemma EffectsInCanonicalOrder(cfg: Config, o: Outcomes)
    ensures InCanonicalOrder(Deploy(cfg, o))
    ensures forall i :: 0 <= i < |Deploy(cfg, o)| - 1 ==> !Deploy(cfg, o)[i].Abort?
  {
    if PinataReached(cfg, o) {
      var hash := LocalHash(o).value;
      var pin := [PinataPin(hash, PinataOptionsFor(cfg.remote, o.addresses.value))];
      ReachedUnfolds(cfg, o);
      if o.pinataOk {
        PinnedInOrder(cfg, o, hash);
        OrderedConcat(pin, OnPinned(cfg, o, hash), 0, 0, 5);
      } else {
        OrderedConcat(pin, [Abort(PinataFailed)], 0, 0, 5);
      }
    }
    AbortOnlyLast(Deploy(cfg, o));
  }

  /** In a run in canonical order nothing follows an abort, which has the highest rank. */
  lemma AbortOnlyLast(trace: seq<Effect>)
    requires InCanonicalOrder(trace)
    ensures forall i :: 0 <= i < |trace| - 1 ==> !trace[i].Abort?
  {
    forall i | 0 <= i < |trace| - 1
      ensures !trace[i].Abort?
    {
      assert Rank(trace[i]) < Rank(trace[|trace| - 1]);
    }
  }

  /** Once Pinata is reached, the run is the `id` callback on the run's identifier. */
  lemma ReachedUnfolds(cfg: Config, o: Outcomes)
    requires PinataReached(cfg, o)
    ensures Deploy(cfg, o) == OnAdded(cfg, o, LocalHash(o).value)
  {
  }

  /** Every effect of `trace` has a rank in `lo..hi`. */
  predicate RanksWithin(trace: seq<Effect>, lo: nat, hi: nat)
  {
    forall e :: e in trace ==> lo <= Rank(e) <= hi
  }

  /**
   * Joining an ordered run of ranks `lo..m` with one of ranks `m+1..hi`
   * gives an ordered run of ranks `lo..hi`.
   */
  lemma OrderedConcat(a: seq<Effect>, b: seq<Effect>, lo: nat, m: nat, hi: nat)
    requires InCanonicalOrder(a) && InCanonicalOrder(b)
    requires lo <= m < hi
    requires RanksWithin(a, lo, m) && RanksWithin(b, m + 1, hi)
    ensures InCanonicalOrder(a + b)
    ensures RanksWithin(a + b, lo, hi)
  {
    assert forall e :: e in a + b ==> e in a || e in b;
    forall i, j | 0 <= i < j < |a + b|
      ensures Rank((a + b)[i]) < Rank((a + b)[j])
    {
      if j < |a| {
      } else if i >= |a| {
        assert (a + b)[i] == b[i - |a|] && (a + b)[j] == b[j - |a|];
      } else {
        assert (a + b)[i] in a && (a + b)[j] in b;
      }
    }
  }

  /** The pieces of the Pinata success handler, each within its own band of ranks. */
  lemma HandlerPiecesRanked(dns: Option<DnsAttempt>, open: seq<Effect>)
    requires open == [] || (|open| == 1 && open[0].OpenUrl?)
    ensures InCanonicalOrder(DnsStarted(dns)) && RanksWithin(DnsStarted(dns), 3, 3)
    ensures InCanonicalOrder(open) && RanksWithin(open, 4, 4)
    ensures InCanonicalOrder(DnsSettled(dns)) && RanksWithin(DnsSettled(dns), 5, 5)
  {
  }

  /** The Pinata success handler initiates effects in the canonical order, all after Pinata. */
  lemma PinnedInOrder(cfg: Config, o: Outcomes, hash: string)
    ensures InCanonicalOrder(OnPinned(cfg, o, hash))
    ensures RanksWithin(OnPinned(cfg, o, hash), 1, 5)
  {
    var dns := if cfg.updateDns then Some(UpdateDns(cfg.remote, hash, o.dnsProviderOk)) else None;
    var first := [InfuraPin(InfuraPinUrl(hash)), Clipboard(hash)];
    var open := if cfg.open then [OpenUrl(SiteUrl(cfg.remote.siteDomain))] else [];
    assert OnPinned(cfg, o, hash) == first + DnsStarted(dns) + open + DnsSettled(dns);
    assert InCanonicalOrder(first) && RanksWithin(first, 1, 2);
    HandlerPiecesRanked(dns, open);
    OrderedConcat(first, DnsStarted(dns), 1, 2, 3);
    OrderedConcat(first + DnsStarted(dns), open, 1, 3, 4);
    OrderedConcat(first + DnsStarted(dns) + open, DnsSettled(dns), 1, 4, 5);
  }

  /**
   * A failure to spawn or start the node, to add the directory, or to list
   * the addresses ends the run with nothing but the abort.
   */
  lemma EarlyFailureAbortsAlone(cfg: Config, o: Outcomes)
    ensures !PinataReached(cfg, o) <==> |Deploy(cfg, o)| == 1 && Deploy(cfg, o)[0].Abort?
    ensures !PinataReached(cfg, o) ==>
      Deploy(cfg, o)[0].reason in {SpawnFailed, StartFailed, AddFailed, EmptyAddResult, IdFailed, NoPinataSettings}
  {
  }

  /** A refused Pinata pin ends the run straight after the request. */
  lemma PinataFailureStops(cfg: Config, o: Outcomes)
    requires PinataReached(cfg, o) && !o.pinataOk
    ensures Deploy(cfg, o) ==
      [PinataPin(LocalHash(o).value, PinataOptionsFor(cfg.remote, o.addresses.value)), Abort(PinataFailed)]
  {
  }

  /** Infura, the clipboard, DNS and the browser are reached only through a successful Pinata pin. */
  lemma LaterEffectsNeedPinata(cfg: Config, o: Outcomes)
    ensures forall e :: e in Deploy(cfg, o) && (e.InfuraPin? || e.Clipboard? || e.DnsUpdate? || e.OpenUrl?)
                        ==> PinataSucceeded(cfg, o)
  {
  }

  /** After a successful Pinata pin, Infura is asked and then the identifier is copied. */
  lemma ClipboardFollowsPinata(cfg: Config, o: Outcomes)
    requires PinataSucceeded(cfg, o)
    ensures |Deploy(cfg, o)| >= 3
    ensures Deploy(cfg, o)[1] == InfuraPin(InfuraPinUrl(LocalHash(o).value))
    ensures Deploy(cfg, o)[2] == Clipboard(LocalHash(o).value)
  {
  }

  /** Whatever Infura answers, the run goes on the same way. */
  lemma InfuraOutcomeIrrelevant(cfg: Config, o: Outcomes, infura: InfuraOutcome)
    ensures Deploy(cfg, o.(infura := infura)) == Deploy(cfg, o)
  {
  }

  /**
   * The DNS provider is called exactly when Pinata succeeded, DNS updates are
   * enabled and the pre-flight check passes.
   */
  lemma DnsUpdateIff(cfg: Config, o: Outcomes)
    ensures (exists e :: e in Deploy(cfg, o) && e.DnsUpdate?) <==>
      PinataSucceeded(cfg, o) && cfg.updateDns && BuildRequest(cfg.remote, LocalHash(o).value).Success?
  {
    if PinataSucceeded(cfg, o) {
      ReachedUnfolds(cfg, o);
      var hash := LocalHash(o).value;
      var dns := if cfg.updateDns then Some(UpdateDns(cfg.remote, hash, o.dnsProviderOk)) else None;
      assert Deploy(cfg, o) == [Deploy(cfg, o)[0]] + OnPinned(cfg, o, hash);
      if cfg.updateDns && BuildRequest(cfg.remote, hash).Success? {
        assert Deploy(cfg, o)[3] == DnsStarted(dns)[0];
      }
    }
  }

  /**
   * Every DNS update of a run is the request `doUpdateDns` builds for the
   * run's identifier: the site domain as record and zone.
   */
  lemma DnsUpdateTargetsSite(cfg: Config, o: Outcomes)
    ensures forall e :: e in Deploy(cfg, o) && e.DnsUpdate? ==>
      && PinataSucceeded(cfg, o)
      && e.request == BuildRequest(cfg.remote, LocalHash(o).value).value
      && e.request.opts.record == e.request.opts.zone == cfg.remote.siteDomain.value
  {
    if PinataSucceeded(cfg, o) {
      ReachedUnfolds(cfg, o);
      var hash := LocalHash(o).value;
      assert Deploy(cfg, o) == [Deploy(cfg, o)[0]] + OnPinned(cfg, o, hash);
    }
  }

  /** The site is opened exactly when Pinata succeeded and `open` is set. */
  lemma OpenUrlIff(cfg: Config, o: Outcomes)
    ensures (exists e :: e in Deploy(cfg, o) && e.OpenUrl?) <==> PinataSucceeded(cfg, o) && cfg.open
    ensures OpenUrl(SiteUrl(cfg.remote.siteDomain)) in Deploy(cfg, o) <==> PinataSucceeded(cfg, o) && cfg.open
  {
    if PinataReached(cfg, o) {
      ReachedUnfolds(cfg, o);
      var hash := LocalHash(o).value;
      if o.pinataOk {
        assert Deploy(cfg, o) == [Deploy(cfg, o)[0]] + OnPinned(cfg, o, hash);
      }
    }
  }

  /** Opening the site does not depend on whether DNS is updated. */
  lemma OpenIgnoresUpdateDns(cfg: Config, o: Outcomes, updateDns: bool)
    ensures forall url :: OpenUrl(url) in Deploy(cfg, o) <==> OpenUrl(url) in Deploy(cfg.(updateDns := updateDns), o)
  {
  }

  /**
   * Pinata, Infura, the clipboard and the DNS link all carry the one
   * identifier the local add produced.
   */
  lemma OneIdentifierThroughout(cfg: Config, o: Outcomes)
    ensures forall e :: e in Deploy(cfg, o) && (e.PinataPin? || e.InfuraPin? || e.Clipboard? || e.DnsUpdate?)
                        ==> CarriedHash(e) == LocalHash(o)
  {
    if PinataReached(cfg, o) {
      var hash := LocalHash(o).value;
      ReachedUnfolds(cfg, o);
      if o.pinataOk {
        PinnedCarriesHash(cfg, o, hash);
      }
    }
  }

  /** Every identifier the Pinata success handler passes on is the one it was given. */
  lemma PinnedCarriesHash(cfg: Config, o: Outcomes, hash: string)
    ensures forall e :: e in OnPinned(cfg, o, hash) && (e.InfuraPin? || e.Clipboard? || e.DnsUpdate?)
                        ==> CarriedHash(e) == Some(hash)
  {
    var dns := if cfg.updateDns then Some(UpdateDns(cfg.remote, hash, o.dnsProviderOk)) else None;
    var open := if cfg.open then [OpenUrl(SiteUrl(cfg.remote.siteDomain))] else [];
    assert OnPinned(cfg, o, hash)
        == [InfuraPin(InfuraPinUrl(hash)), Clipboard(hash)] + DnsStarted(dns) + open + DnsSettled(dns);
    InfuraUrlRoundTrip(hash);
    LinkRoundTrip(hash);
  }

  /**
   * The run ends without an error exactly when Pinata succeeded and, if DNS
   * is updated, the pre-flight check passed and the provider accepted.
   */
  lemma CompletedIff(cfg: Config, o: Outcomes)
    ensures Completed(Deploy(cfg, o)) <==>
      PinataSucceeded(cfg, o)
      && (cfg.updateDns ==> BuildRequest(cfg.remote, LocalHash(o).value).Success? && o.dnsProviderOk)
  {
    if PinataReached(cfg, o) {
      ReachedUnfolds(cfg, o);
      var hash := LocalHash(o).value;
      var dns := if cfg.updateDns then Some(UpdateDns(cfg.remote, hash, o.dnsProviderOk)) else None;
      if o.pinataOk {
        var trace := Deploy(cfg, o);
        assert trace == [trace[0]] + OnPinned(cfg, o, hash);
        if DnsSettled(dns) != [] {
          assert trace[|trace| - 1] == DnsSettled(dns)[0];
        }
      } else {
        assert Deploy(cfg, o)[1].Abort?;
      }
    } else {
      assert Deploy(cfg, o)[0].Abort?;
    }
  }

  /** Pinata's host hints are the node's addresses with the local ones removed, in order. */
  lemma PinataHostsArePublic(cfg: Config, o: Outcomes)
    requires PinataReached(cfg, o)
    ensures Deploy(cfg, o)[0].PinataPin?
    ensures Deploy(cfg, o)[0].options.hostNodes == PublicAddresses(o.addresses.value)
    ensures forall a :: a in Deploy(cfg, o)[0].options.hostNodes <==> a in o.addresses.value && !IsLocal(a)
    ensures forall a :: multiset(Deploy(cfg, o)[0].options.hostNodes)[a]
                        == if IsLocal(a) then 0 else multiset(o.addresses.value)[a]
    ensures IsSubsequence(Deploy(cfg, o)[0].options.hostNodes, o.addresses.value)
  {
    KeptCount(o.addresses.value);
  }

  /** The remote options of the example run. */
  function ExampleRemote(): Remote
  {
    Remote(Some("example.com"), Some(Cloudflare(Some("ops@example.com"), Some("k3y"))), Some(PinataKeys(Some("pk"), Some("sk"))))
  }

  /** The step outcomes of the example run: everything succeeds. */
  function ExampleOutcomes(): Outcomes
  {
    Outcomes(true, true, Some([AddEntry("public/index.html", "bafyPAGE"), AddEntry("public", "bafyABC123")]),
             Some(["/ip4/127.0.0.1/tcp/4001", "/ip4/192.168.1.5/tcp/4001", "/ip4/203.0.113.9/tcp/4001"]),
             true, InfuraStatus(200), true)
  }

  /**
   * An end-to-end run: the identifier `bafyABC123`, both pins
   * accepted, DNS updated with valid credentials. Pinata gets the public
   * address only, and the DNS link is `/ipfs/bafyABC123`.
   */
  lemma EndToEndExample()
    ensures Deploy(DefaultConfig(ExampleRemote()), ExampleOutcomes()) ==
      [ PinataPin("bafyABC123", PinataOptions(["/ip4/203.0.113.9/tcp/4001"], Some("example.com"), "TODO")),
        InfuraPin(InfuraPinUrl("bafyABC123")),
        Clipboard("bafyABC123"),
        DnsUpdate(DnsRequest(Api("ops@example.com", "k3y"), LinkOptions("example.com", "example.com", "/ipfs/bafyABC123"))) ]
  {
    var cfg, o := DefaultConfig(ExampleRemote()), ExampleOutcomes();
    assert LocalHash(o) == Some("bafyABC123");
    ReachedUnfolds(cfg, o);
    ExamplePinataOptions();
    ExamplePinned();
  }

  /** The Pinata options of the example run: only the public address is a host hint. */
  lemma ExamplePinataOptions()
    ensures PinataOptionsFor(ExampleRemote(), ExampleOutcomes().addresses.value)
         == PinataOptions(["/ip4/203.0.113.9/tcp/4001"], Some("example.com"), "TODO")
  {
    LoopbackAndLanDropped();
  }

  /** The Pinata success handler of the example run: Infura pin, clipboard copy, DNS update. */
  lemma ExamplePinned()
    ensures OnPinned(DefaultConfig(ExampleRemote()), ExampleOutcomes(), "bafyABC123") ==
      [ InfuraPin(InfuraPinUrl("bafyABC123")),
        Clipboard("bafyABC123"),
        DnsUpdate(DnsRequest(Api("ops@example.com", "k3y"), LinkOptions("example.com", "example.com", "/ipfs/bafyABC123"))) ]
  {
    var request := DnsRequest(Api("ops@example.com", "k3y"), LinkOptions("example.com", "example.com", "/ipfs/bafyABC123"));
    ExampleDns();
    PinnedWithDnsAccepted(DefaultConfig(ExampleRemote()), ExampleOutcomes(), "bafyABC123", request);
  }

  /** With DNS on, the browser off and the update accepted, the handler pins, copies and links. */
  lemma PinnedWithDnsAccepted(cfg: Config, o: Outcomes, hash: string, request: DnsRequest)
    requires cfg.updateDns && !cfg.open
    requires UpdateDns(cfg.remote, hash, o.dnsProviderOk) == Submitted(request, true)
    ensures OnPinned(cfg, o, hash) == [InfuraPin(InfuraPinUrl(hash)), Clipboard(hash), DnsUpdate(request)]
  {
    var dns := Some(Submitted(request, true));
    assert DnsStarted(dns) == [DnsUpdate(request)];
    assert DnsSettled(dns) == [];
  }

  /** The DNS update of the example run is submitted with the site's record, zone and link. */
  lemma ExampleDns()
    ensures UpdateDns(ExampleRemote(), "bafyABC123", true)
         == Submitted(DnsRequest(Api("ops@example.com", "k3y"), LinkOptions("example.com", "example.com", "/ipfs/bafyABC123")), true)
  {
    ExampleRequest();
  }
}

=== FILE: results.dfy ===
/** Optional values and success-or-error results, shared by the deployment model. */
module Results {

  /** A value that may be absent (JavaScript's `undefined`). */
  datatype Option<+T> = None | Some(value: T)

  /** The outcome of a step that either yields a value or fails with an error. */
  datatype Result<+T, +E> = Success(value: T) | Failure(error: E)
}

=== FILE: settings.dfy ===
/**
 * The options `deploy` is called with (index.js, lines 47-64), and the
 * JavaScript truthiness the source applies to them.
 */
module Settings {
  import opened Results

  /** Cloudflare credentials; an absent property is `None`. */
  datatype Cloudflare = Cloudflare(apiEmail: Option<string>, apiKey: Option<string>)

  /** Pinata credentials; handed to the Pinata client unchecked. */
  datatype PinataKeys = PinataKeys(apiKey: Option<string>, secretApiKey: Option<string>)

  /**
   * The `remote` options object. The nested `cloudflare` and `pinata`
   * objects may themselves be absent; reading a property of an absent one
   * throws.
   */
  datatype Remote = Remote(siteDomain: Option<string>, cloudflare: Option<Cloudflare>, pinata: Option<PinataKeys>)

  /** The options of one deployment run. */
  datatype Config = Config(updateDns: bool, open: bool, publicDirPath: string, remote: Remote)

  /** The defaults of the destructured parameter: update DNS, do not open, publish `public`. */
  function DefaultConfig(remote: Remote): (c: Config)
    ensures c.updateDns && !c.open
    ensures c.publicDirPath == "public"
    ensures c.remote == remote
  {
    Config(true, false, "public", remote)
  }

  /**
   * A string option is truthy when it is present and not the empty string:
   * the falsy ones are those a template literal renders as `""` or `undefined`.
   */
  predicate Present(o: Option<string>)
    ensures Present(o) ==> o.Some? && JsText(o) == o.value && |JsText(o)| > 0
    ensures !Present(o) ==> JsText(o) == "" || JsText(o) == "undefined"
  {
    o.Some? && o.value != ""
  }

  /** The text a template literal produces for an optional string. */
  function JsText(o: Option<string>): (t: string)
    ensures o.Some? ==> t == o.value
    ensures o.None? ==> t == "undefined"
    ensures t == "" <==> o == Some("")
  {
    match o
    case Some(s) => s
    case None => "undefined"
  }
}

=== FILE: text.dfy ===
/**
 * Substring search on strings, the only string matching the deployment
 * pipeline performs: every regular expression it uses is a literal pattern
 * without anchors, so `s.match(/pat/)` succeeds exactly when `pat` occurs
 * somewhere in `s`.
 */
module Text {

  /** `pat` occurs in `s` starting at position `i`. */
  predicate MatchesAt(s: string, pat: string, i: int)
  {
    0 <= i && i + |pat| <= |s| && s[i..i + |pat|] == pat
  }

  /** `pat` occurs somewhere in `s`. */
  predicate Contains(s: string, pat: string)
  {
    exists i :: 0 <= i <= |s| - |pat| && MatchesAt(s, pat, i)
  }

  predicate StartsWith(s: string, prefix: string)
  {
    |prefix| <= |s| && s[..|prefix|] == prefix
  }

  predicate EndsWith(s: string, suffix: string)
  {
    |suffix| <= |s| && s[|s| - |suffix|..] == suffix
  }

  /**
   * The position of the first occurrence of `pat` in `s`, or -1 when there
   * is none; this is what a regular-expression match of a literal pattern
   * reports.
   */
  method IndexOf(s: string, pat: string) returns (k: int)
    ensures k == -1 <==> !Contains(s, pat)
    ensures k != -1 ==> MatchesAt(s, pat, k)
    ensures forall j :: 0 <= j < k ==> !MatchesAt(s, pat, j)
  {
    var i := 0;
    while i + |pat| <= |s|
      invariant 0 <= i
      invariant forall j :: 0 <= j < i ==> !MatchesAt(s, pat, j)
    {
      if s[i..i + |pat|] == pat {
        assert MatchesAt(s, pat, i);
        return i;
      }
      i := i + 1;
    }
    return -1;
  }

  /** A pattern holding a character that `s` lacks cannot occur in `s`. */
  lemma MissingCharExcludes(s: string, pat: string, c: char)
    requires c in pat
    requires c !in s
    ensures !Contains(s, pat)
  {
  }
}
